=== FILE: README.md ===
# DataTable, InputField and InputPage in Dafny

A model of the logic in a small React UI demo. The demo has three parts:

- `DataTable`, a generic table that can be sorted and selected;
- `InputField`, a styled text input;
- `InputPage`, a form page that validates its three fields.

React state becomes an explicit value. Each event handler is a pure function from the old state to the new state. Rendering is a pure function of the props and the state.

- `optional.dfy` (module `Optional`): optional props and fields, and JavaScript truthiness of an optional string.
- `jsstring.dfy` (module `JsString`): the JavaScript string behaviour the components rely on.
  - Strings are UTF-16 code units, so `length` counts code units and a character outside the Basic Multilingual Plane counts twice.
  - `<` compares code units lexicographically.
  - `trim()` strips the WhiteSpace and LineTerminator characters of ECMA-262.
- `datatable.dfy` (module `DataTable`) covers five things:
  - the sort-header state machine (`handleSort`);
  - the derived row order (`sortedData`);
  - selection toggling (`toggleRow`);
  - the loading / empty / table choice and the header indicator;
  - the table's two events.
- `inputfield.dfy` (module `InputField`):
  - prop defaults;
  - the masked/shown input type and the eye button;
  - the clear button and the value it emits;
  - helper text versus error text.
- `inputpage.dfy` (module `InputPage`): `validate`, and the props the page passes to its username, email and password fields.

Modelling choices:

- **Row identity.** A row is `Row(ref, fields)`. `ref` stands for the JavaScript object reference. Selection membership (`selected.includes(row)`) and removal (`r !== row`) compare `ref` only. Two rows with identical fields, `id` included, are different rows when their refs differ.
- **Sort values.** Field values are strings. They compare as JavaScript compares strings. A missing field is `undefined`: every `<` and `>` involving it is false, so the comparator returns 0.
- **The sort.** `Array.prototype.sort` must be stable for a consistent comparator (ECMAScript 2019 and later). The model sorts with a stable insertion sort, which is one concrete such sort. The model's sort is proved to have these properties for every input, whether or not the comparator is consistent:
  - the result is a permutation;
  - no adjacent pair is out of order.

  When every row carries the sort field, every pair is in order, not only neighbours.
- **Sort key versus `dataIndex`.** The sort reads the property named by the active column's `key` (`src/Components/DataTable/DataTable.tsx:42`), not its `dataIndex`. `dataIndex` is read only for the cell text (`src/Components/DataTable/DataTable.tsx:101`). The two agree whenever a column's key equals its `dataIndex`, as on the demo's table page.
- **Truthiness.** `sortedData` tests `sortKey ?`, which is false for the empty string. The header indicator tests `sortKey === col.key`. A sortable column whose key is `""` therefore shows the indicator but never sorts. The model reproduces this (`EmptyKeyShowsIndicatorWithoutSorting`).
- **Callbacks.** `onRowSelect` and `onChange` are results, not calls. `ToggleRow` returns the argument `onRowSelect` receives, or None when no callback is supplied. `Clear` returns the value `onChange` reports, or None when there is no callback.

## Model

| member | source | states |
|---|---|---|
| DataTable.HandleSort | src/Components/DataTable/DataTable.tsx:30-38 | A non-sortable header leaves the sort state unchanged. A sortable header becomes the sort key. A newly chosen key resets to ascending. Re-clicking the active key flips the direction. |
| DataTable.ClickTwiceOnActiveRestores | src/Components/DataTable/DataTable.tsx:32-33 | Two clicks on the active sortable header restore the sort state exactly. |
| DataTable.RepeatedClicksAlternate | src/Components/DataTable/DataTable.tsx:30-38 | n clicks on a sortable header that is not active leave it active: ascending for odd n, descending for even n. |
| DataTable.ThreeClicksFromFresh | src/Components/DataTable/DataTable.tsx:32-37 | Three clicks on a fresh sortable header give ascending, descending, ascending. |
| DataTable.Compare | src/Components/DataTable/DataTable.tsx:42-46 | The comparator returns -1, 0 or 1. It returns 0 exactly when neither value is less than the other. It is negative exactly when the first row precedes in the chosen direction. |
| DataTable.CompareAntisymmetric | src/Components/DataTable/DataTable.tsx:41-47 | Swapping the arguments negates the comparator's result. |
| DataTable.Insert | src/Components/DataTable/DataTable.tsx:41-47 | Inserting a row into rows whose neighbours are in order gives rows whose neighbours are in order. The result holds the same rows plus the inserted one. |
| DataTable.SortRows | src/Components/DataTable/DataTable.tsx:40-47 | The sorted copy has the same length and the same multiset of rows as the input. No adjacent pair is out of order. |
| DataTable.SortedData | src/Components/DataTable/DataTable.tsx:40-48 | `sortedData` is always a permutation of `data`. With no active key (null or "") it is `data` in input order. Otherwise no adjacent pair has next < prev (ascending) or next > prev (descending); ties are allowed. |
| DataTable.AdjacentSortedIsSorted | src/Components/DataTable/DataTable.tsx:41-47 | When every row carries the sort field, order between neighbours implies order between every pair. |
| DataTable.SortedDataIsSorted | src/Components/DataTable/DataTable.tsx:40-47 | Sorting by a field every row carries puts every pair of rows in order. |
| JsString.LessAsymmetric | src/Components/DataTable/DataTable.tsx:44-45 | String `<` (`JsString.Less`, a lexicographic comparison of UTF-16 code units) never holds in both directions, so the comparator cannot place two rows before each other. |
| JsString.NotLessTransitive | src/Components/DataTable/DataTable.tsx:44-45 | "Not less than" on strings is transitive, which is what makes the string comparison a total preorder for sorting. |
| DataTable.Without | src/Components/DataTable/DataTable.tsx:54 | Filtering removes as many entries as refer to the row's object. The result holds exactly the entries whose ref differs from the row's. |
| DataTable.WithoutAppend | src/Components/DataTable/DataTable.tsx:54 | The filter distributes over concatenation, so the remaining entries keep their relative order. |
| DataTable.WithoutAbsent | src/Components/DataTable/DataTable.tsx:54 | Filtering out an object that is not selected leaves the selection unchanged. |
| DataTable.CountWithout | src/Components/DataTable/DataTable.tsx:54 | After the filter the row's object occurs zero times. Every other object occurs as often as before. |
| DataTable.SelectedIffCounted | src/Components/DataTable/DataTable.tsx:53 | `includes` holds exactly when the row's object occurs at least once in the selection. |
| DataTable.ToggleRow | src/Components/DataTable/DataTable.tsx:50-60 | When not selectable, nothing changes and no callback fires. Otherwise an unselected row is appended at the end. A selected row yields exactly the filtered selection `Without`, which drops every entry referring to the row and keeps the others in order. The callback, when supplied, receives exactly the new selection. |
| DataTable.ToggleCounts | src/Components/DataTable/DataTable.tsx:53-57 | After a toggle the row's object occurs once if it was unselected and zero times if it was selected. Every other object's count is unchanged. |
| DataTable.ToggleKeepsNoDuplicates | src/Components/DataTable/DataTable.tsx:53-57 | Toggling a selection without duplicate objects never creates one. |
| DataTable.ToggleChangesLengthByOne | src/Components/DataTable/DataTable.tsx:53-57 | On a selection without duplicates a toggle changes the length by exactly one: minus one when the row was selected, plus one when it was not. |
| DataTable.ToggleTwiceUnselectedRestores | src/Components/DataTable/DataTable.tsx:53-57 | Toggling an unselected row twice restores the selection: same contents, same order. |
| DataTable.ToggleTwiceSelectedMovesToEnd | src/Components/DataTable/DataTable.tsx:53-57 | Toggling a selected row twice removes its occurrences and appends it at the end. |
| DataTable.SelectionIsByReference | src/Components/DataTable/DataTable.tsx:53-54 | Selection is by object identity. For any selection, toggling one of two rows with identical fields leaves the other's membership unchanged. |
| DataTable.HeaderOf | src/Components/DataTable/DataTable.tsx:76-83 | A header shows a direction indicator exactly when its column's key equals `sortKey`. The indicator shown is the current direction. |
| DataTable.EmptyKeyShowsIndicatorWithoutSorting | src/Components/DataTable/DataTable.tsx:40-48 | A clicked sortable column keyed "" shows the ascending indicator (line 82), but the rows keep their input order. |
| DataTable.Render | src/Components/DataTable/DataTable.tsx:62-108 | The output is Loading exactly when loading. It is Empty exactly when not loading and there are no rows. Otherwise it is the table: one header per column, and header i is exactly `HeaderOf` column i, so it keeps the column's key, title and sortable flag and shows the current direction only on the sort column. The rows shown are exactly `sortedData`, in its order. Each row's checkbox exists exactly when the table is selectable and is checked exactly when the row's object is selected. |
| DataTable.RenderIndicatorsAndRows | src/Components/DataTable/DataTable.tsx:76-83 | In a rendered table only the header of the sort column carries an indicator, and it shows the current direction. The rows shown, being `sortedData` (lines 40-48), are a permutation of `data`. |
| DataTable.InitialRender | src/Components/DataTable/DataTable.tsx:26-28 | With the initial state (no selection, no sort key, ascending), a non-empty table shows the rows in input order, no header indicator and no checked checkbox. |
| DataTable.Step | src/Components/DataTable/DataTable.tsx:30-60 | A header click sets the sort state to the `handleSort` result, keeps the selection and notifies nobody. A checkbox toggle sets the selection to the `toggleRow` result and keeps the sort state. When selectable with a callback, it notifies the callback with the new selection. Without a callback, it notifies nobody. |
| DataTable.SelectionSurvivesResort | src/Components/DataTable/DataTable.tsx:88-95 | After a header click the table shows the same rows, and every row's checkbox keeps its state. |
| DataTable.SortScenario | src/Components/DataTable/DataTable.tsx:30-48 | Rows named B and A: one click on the name header shows A, B; a second click shows B, A. |
| DataTable.ToggleScenario | src/Components/DataTable/DataTable.tsx:50-60 | Toggling row 1, row 2, then row 1 again notifies [row1], then [row1, row2], then [row2]. |
| InputField.Resolve | src/Components/InputField/InputField.tsx:29-33 | Each of variant, size, type, clearable and theme is kept when supplied. Each one omitted takes its own default (outlined, md, text, not clearable, light), whatever other props are passed. |
| InputField.DefaultSettings | src/Components/InputField/InputField.tsx:29-33 | Omitted props default to outlined, md, text, not clearable and light. |
| InputField.RenderedType | src/Components/InputField/InputField.tsx:48 | The input is masked exactly when the type is password and the password is not being shown. |
| InputField.Clear | src/Components/InputField/InputField.tsx:57-58 | Pressing clear reports the empty string to `onChange` exactly when an `onChange` is supplied. |
| InputField.Render | src/Components/InputField/InputField.tsx:39-80 | The label shows exactly when it is non-empty, and then shows the given text. The input is masked exactly when the resolved type is password and the password is hidden. The clear button shows exactly when the field is clearable and the value is non-empty. The eye button exists exactly for password fields, and its icon reflects whether the password is currently shown. The helper shows exactly when it is non-empty and there is no non-empty error. The error shows exactly when it is non-empty. |
| InputField.HelperAndErrorExclusive | src/Components/InputField/InputField.tsx:75-80 | Helper text and error text are never shown together. |
| InputField.PasswordToggleInvolution | src/Components/InputField/InputField.tsx:65-68 | The eye button's handler (`InputField.TogglePassword`, `setShowPassword((p) => !p)`) restores `showPassword` when pressed twice. On a password field one press switches between masked and shown. |
| InputField.TextFieldNeverMasked | src/Components/InputField/InputField.tsx:48-72 | A text field is never masked and has no eye button. |
| InputField.ClearHidesClearButton | src/Components/InputField/InputField.tsx:54-58 | Once the parent stores the value that clearing reports, the clear button is hidden. |
| JsString.TrimStart | src/Pages/InputPage.tsx:19 | Trimming the start leaves a suffix that does not begin with white space. Everything dropped was white space. |
| JsString.TrimEnd | src/Pages/InputPage.tsx:19 | Trimming the end leaves a prefix that does not end with white space. Everything dropped was white space. |
| JsString.TrimEmptyIffBlank | src/Pages/InputPage.tsx:19 | `s.trim()` (`JsString.Trim`, `TrimStart` then `TrimEnd`) is empty exactly when every character of `s` is white space or a line terminator. |
| JsString.LengthCountsCodeUnits | src/Pages/InputPage.tsx:21 | `length` (`JsString.Length`, the number of UTF-16 code units) is at least the number of characters and at most twice it. It equals the number of characters exactly when no character lies outside the Basic Multilingual Plane. |
| JsString.DecodeEncodeChar | src/Pages/InputPage.tsx:21 | The UTF-16 encoding that `length` counts is lossless: decoding one character's one or two code units gives back its code point. |
| InputPage.Validate | src/Pages/InputPage.tsx:16-25 | The username error is present exactly when the username has no non-white-space character. The email error is present exactly when the email has no '@'. The password error is present exactly when the password has fewer than 6 code units. Keys are only these three, each with its fixed message. The result is true exactly when all three rules pass, which is exactly when the map is empty. |
| InputPage.RulesIndependent | src/Pages/InputPage.tsx:19-21 | Changing one input never adds, removes or alters another field's error. |
| InputPage.PasswordLengthBounds | src/Pages/InputPage.tsx:21 | A password of six or more characters always passes. One of two or fewer characters never does. |
| InputPage.UsernameFieldAfterSubmit | src/Pages/InputPage.tsx:38-47 | With the props the page passes (`InputPage.UsernameProps`), after validation the username field shows "Username is required" exactly when the username is blank, and shows its helper text otherwise. |
| InputPage.EmailFieldAfterSubmit | src/Pages/InputPage.tsx:49-57 | With the props the page passes (`InputPage.EmailProps`), after validation the email field shows "Enter a valid email" exactly when the email lacks '@'. It never shows helper text. |
| InputPage.PasswordFieldAfterSubmit | src/Pages/InputPage.tsx:59-68 | With the props the page passes (`InputPage.PasswordProps`), after validation the password field shows its error exactly when the password is too short, shows its helper text otherwise, and starts masked. |

## Left out

- Rendering details are not modelled: JSX and DOM structure, CSS class strings, emoji glyphs, and cell text (`String(row[col.dataIndex])`). The model keeps only which elements appear and what state they show.
- React's `useState` scheduling and re-rendering are not modelled. State is passed in and returned explicitly.
- The caller's `data` is never mutated. In a value model this holds trivially, so no contract states it.
- Field values are strings only. JavaScript's `<` and `>` on numbers and on mixed types (with their coercions) are not modelled.
- The sort is one stable insertion sort. Engine-specific `Array.prototype.sort` algorithms are not modelled. When a field is missing on some rows only, the comparator is inconsistent and ECMA-262 leaves the order implementation-defined: only the permutation is then certain of every engine. Order between neighbours is a property of the model's insertion sort.
- DataTable.SortRows: stability (rows that tie keep their input order) is not stated as a contract.
- JavaScript strings can hold lone surrogate code units. Dafny strings cannot, so such strings are not modelled.
- `handleSubmit` is not modelled (`src/Pages/InputPage.tsx:27-32`). Its `preventDefault` and `alert` are browser I/O, and it does nothing else but call `validate`.
- The `disabled`, `invalid`, `placeholder`, `variant`, `size` and `theme` props are resolved but only affect CSS classes and attributes, which are not modelled.
- `src/App.tsx` is not part of this model: it only wires page navigation and the theme button.
- `src/Pages/TablePage.tsx` is not part of this model: it is a fixed fixture of eight users and a column configuration.

=== FILE: datatable.dfy ===
/** The generic sortable, selectable table component (`DataTable`).
    The component's React state (sort column, sort direction, selected rows)
    is an explicit value: every event handler is a function from the old
    state to the new one, and rendering is a function of the props and the
    state. */
module DataTable {
  import opened Optional
  import JsString

  // -----------------------------------------------------------------------
  // Data model

  /** A caller's row object. `ref` stands for the object's identity (the
      JavaScript reference); `fields` are its properties, `id` among them.
      Two rows with equal fields but different refs are different objects. */
  type Ref = nat
  datatype Row = Row(ref: Ref, fields: map<string, string>)

  /** A column descriptor; `sortable` is `col.sortable` with `undefined`
      read as false. */
  datatype Column = Column(key: string, title: string, dataIndex: string, sortable: bool)

  datatype Order = Asc | Desc

  /** `sortKey` (null until a header is clicked) and `sortOrder`. */
  datatype SortState = SortState(sortKey: Option<string>, sortOrder: Order)

  const InitialSort := SortState(None, Asc)

  /** All component state: sort state plus the selection, in click order. */
  datatype TableState = TableState(sort: SortState, selected: seq<Row>)

  const InitialState := TableState(InitialSort, [])

  // -----------------------------------------------------------------------
  // Sort header state machine

  function Flip(o: Order): Order {
    if o == Asc then Desc else Asc
  }

  /** `handleSort(col)`: a non-sortable header does nothing; a header other
      than the active one becomes active, ascending; the active header flips
      the direction. */
  function HandleSort(s: SortState, col: Column): (r: SortState)
    ensures !col.sortable ==> r == s
    ensures col.sortable ==> r.sortKey == Some(col.key)
    ensures col.sortable && s.sortKey != Some(col.key) ==> r.sortOrder == Asc
    ensures col.sortable && s.sortKey == Some(col.key) ==> r.sortOrder != s.sortOrder
  {
    if !col.sortable then s
    else if s.sortKey == Some(col.key) then SortState(s.sortKey, Flip(s.sortOrder))
    else SortState(Some(col.key), Asc)
  }

  /** The sort state after clicking the same header `n` times. */
  function Clicks(s: SortState, col: Column, n: nat): SortState {
    if n == 0 then s else HandleSort(Clicks(s, col, n - 1), col)
  }

  /** Clicking the active sortable header twice restores the sort state. */
  lemma ClickTwiceOnActiveRestores(s: SortState, col: Column)
    requires col.sortable && s.sortKey == Some(col.key)
    ensures HandleSort(HandleSort(s, col), col) == s
  {
  }

  /** Clicking a sortable header that is not active `n` times leaves it
      active, ascending after an odd number of clicks and descending after
      an even one: asc, desc, asc, ... */
  lemma {:induction false} RepeatedClicksAlternate(s: SortState, col: Column, n: nat)
    requires col.sortable && s.sortKey != Some(col.key) && n >= 1
    ensures Clicks(s, col, n) == SortState(Some(col.key), if n % 2 == 1 then Asc else Desc)
  {
    if n > 1 {
      RepeatedClicksAlternate(s, col, n - 1);
    }
  }

  /** The three-click scenario on a fresh header. */
  lemma ThreeClicksFromFresh(s: SortState, col: Column)
    requires col.sortable && s.sortKey != Some(col.key)
    ensures Clicks(s, col, 1).sortOrder == Asc
    ensures Clicks(s, col, 2).sortOrder == Desc
    ensures Clicks(s, col, 3).sortOrder == Asc
  {
    RepeatedClicksAlternate(s, col, 1);
    RepeatedClicksAlternate(s, col, 2);
    RepeatedClicksAlternate(s, col, 3);
  }

  // -----------------------------------------------------------------------
  // Row order

  /** `row[k]`: the property named `k`, `undefined` when absent. */
  function Field(row: Row, k: string): Option<string> {
    if k in row.fields then Some(row.fields[k]) else None
  }

  /** JavaScript `a < b` on two property values: any comparison involving
      `undefined` is false. */
  predicate ValueLess(a: Option<string>, b: Option<string>) {
    a.Some? && b.Some? && JsString.Less(a.value, b.value)
  }

  /** The comparator passed to `sort`. */
  function Compare(a: Row, b: Row, k: string, o: Order): (r: int)
    ensures r in {-1, 0, 1}
    ensures r == 0 <==> !ValueLess(Field(a, k), Field(b, k)) && !ValueLess(Field(b, k), Field(a, k))
    ensures r < 0 <==> (if o == Asc then ValueLess(Field(a, k), Field(b, k))
                                    else ValueLess(Field(b, k), Field(a, k)))
  {
    var valA, valB := Field(a, k), Field(b, k);
    assert ValueLess(valA, valB) ==> !ValueLess(valB, valA) by {
      if valA.Some? && valB.Some? {
        JsString.LessAsymmetric(valA.value, valB.value);
      }
    }
    if ValueLess(valA, valB) then (if o == Asc then -1 else 1)
    else if ValueLess(valB, valA) then (if o == Asc then 1 else -1)
    else 0
  }

  /** The comparator is antisymmetric, as `sort` requires of it. */
  lemma CompareAntisymmetric(a: Row, b: Row, k: string, o: Order)
    ensures Compare(a, b, k, o) == -Compare(b, a, k, o)
  {
    if k in a.fields && k in b.fields {
      JsString.LessAsymmetric(a.fields[k], b.fields[k]);
      JsString.LessAsymmetric(b.fields[k], a.fields[k]);
    }
  }

  /** `b` may directly follow `a` in rows ordered by `k` in direction `o`:
      ascending, `b[k] < a[k]` does not hold; descending, `b[k] > a[k]`
      does not hold. */
  predicate InOrder(a: Row, b: Row, k: string, o: Order) {
    if o == Asc then !ValueLess(Field(b, k), Field(a, k))
    else !ValueLess(Field(a, k), Field(b, k))
  }

  /** No adjacent pair is out of order. */
  predicate AdjacentSorted(s: seq<Row>, k: string, o: Order) {
    forall i :: 1 <= i < |s| ==> InOrder(s[i - 1], s[i], k, o)
  }

  /** Every pair is in order, not just neighbours. */
  predicate Sorted(s: seq<Row>, k: string, o: Order) {
    forall i, j :: 0 <= i < j < |s| ==> InOrder(s[i], s[j], k, o)
  }

  /** A row in order with the head of sorted rows may be put in front. */
  lemma ConsSorted(x: Row, s: seq<Row>, k: string, o: Order)
    requires AdjacentSorted(s, k, o) && (s == [] || InOrder(x, s[0], k, o))
    ensures AdjacentSorted([x] + s, k, o)
  {
    forall i | 2 <= i < |s| + 1 ensures InOrder(([x] + s)[i - 1], ([x] + s)[i], k, o) {
      assert ([x] + s)[i - 1] == s[i - 2] && ([x] + s)[i] == s[i - 1];
    }
  }

  lemma TailSorted(s: seq<Row>, k: string, o: Order)
    requires |s| > 0 && AdjacentSorted(s, k, o)
    ensures AdjacentSorted(s[1..], k, o)
  {
    forall i | 1 <= i < |s[1..]| ensures InOrder(s[1..][i - 1], s[1..][i], k, o) {
      assert s[1..][i - 1] == s[i] && s[1..][i] == s[i + 1];
    }
  }

  /** Inserts `x` in front of the first row that the comparator puts after
      it, so `x` lands behind every row it ties with. */
  function Insert(x: Row, s: seq<Row>, k: string, o: Order): (r: seq<Row>)
    ensures |r| == |s| + 1
    ensures multiset(r) == multiset(s) + multiset{x}
    ensures r[0] == x || (|s| > 0 && r[0] == s[0])
    ensures AdjacentSorted(s, k, o) ==> AdjacentSorted(r, k, o)
  {
    if s == [] then [x]
    else if Compare(x, s[0], k, o) < 0 then
      assert InOrder(x, s[0], k, o) by {
        CompareAntisymmetric(x, s[0], k, o);
      }
      assert AdjacentSorted(s, k, o) ==> AdjacentSorted([x] + s, k, o) by {
        if AdjacentSorted(s, k, o) {
          ConsSorted(x, s, k, o);
        }
      }
      [x] + s
    else
      var rest := Insert(x, s[1..], k, o);
      assert s == [s[0]] + s[1..];
      assert AdjacentSorted(s, k, o) ==> AdjacentSorted([s[0]] + rest, k, o) by {
        if AdjacentSorted(s, k, o) {
          TailSorted(s, k, o);
          ConsSorted(s[0], rest, k, o);
        }
      }
      [s[0]] + rest
  }

  /** A stable insertion sort with the component's comparator. */
  function SortRows(data: seq<Row>, k: string, o: Order): (r: seq<Row>)
    ensures |r| == |data|
    ensures multiset(r) == multiset(data)
    ensures AdjacentSorted(r, k, o)
  {
    if data == [] then []
    else
      var n := |data| - 1;
      assert data == data[..n] + [data[n]];
      Insert(data[n], SortRows(data[..n], k, o), k, o)
  }

  /** True when the sort key names a column `sortedData` actually sorts by:
      `sortKey ? ... : data` treats null and the empty string as false. */
  predicate SortActive(s: SortState) {
    s.sortKey.Some? && s.sortKey.value != ""
  }

  /** `sortedData`: a sorted copy of `data` keyed on the property named by
      the active column's key, or `data` itself when no column is active. */
  function SortedData(data: seq<Row>, s: SortState): (r: seq<Row>)
    ensures |r| == |data| && multiset(r) == multiset(data)
    ensures !SortActive(s) ==> r == data
    ensures SortActive(s) ==> AdjacentSorted(r, s.sortKey.value, s.sortOrder)
  {
    if SortActive(s) then SortRows(data, s.sortKey.value, s.sortOrder) else data
  }

  /** Every row carries the property `k`. */
  predicate AllKeyed(data: seq<Row>, k: string) {
    forall i :: 0 <= i < |data| ==> k in data[i].fields
  }

  lemma InOrderTransitive(a: Row, b: Row, c: Row, k: string, o: Order)
    requires k in a.fields && k in b.fields && k in c.fields
    requires InOrder(a, b, k, o) && InOrder(b, c, k, o)
    ensures InOrder(a, c, k, o)
  {
    var va, vb, vc := a.fields[k], b.fields[k], c.fields[k];
    if o == Asc {
      JsString.NotLessTransitive(va, vb, vc);
    } else {
      JsString.NotLessTransitive(vc, vb, va);
    }
  }

  /** When every row carries the sort property, order between neighbours
      extends to every pair. */
  lemma {:induction false} AdjacentSortedIsSorted(s: seq<Row>, k: string, o: Order)
    requires AllKeyed(s, k) && AdjacentSorted(s, k, o)
    ensures Sorted(s, k, o)
  {
    if |s| > 1 {
      var t := s[..|s| - 1];
      assert AllKeyed(t, k) by {
        forall i | 0 <= i < |t| ensures k in t[i].fields {
          assert t[i] == s[i];
        }
      }
      assert AdjacentSorted(t, k, o) by {
        forall i | 1 <= i < |t| ensures InOrder(t[i - 1], t[i], k, o) {
          assert t[i - 1] == s[i - 1] && t[i] == s[i];
        }
      }
      AdjacentSortedIsSorted(t, k, o);
      forall i, j | 0 <= i < j < |s| ensures InOrder(s[i], s[j], k, o) {
        if j < |s| - 1 {
          assert s[i] == t[i] && s[j] == t[j];
        } else if i < j - 1 {
          assert InOrder(t[i], t[j - 1], k, o);
          InOrderTransitive(s[i], s[j - 1], s[j], k, o);
        }
      }
    }
  }

  /** Sorting by a property every row carries orders all pairs, and the
      rows are exactly the input's rows. */
  lemma SortedDataIsSorted(data: seq<Row>, s: SortState)
    requires SortActive(s) && AllKeyed(data, s.sortKey.value)
    ensures Sorted(SortedData(data, s), s.sortKey.value, s.sortOrder)
  {
    var r := SortedData(data, s);
    var k := s.sortKey.value;
    forall i | 0 <= i < |r| ensures k in r[i].fields {
      assert r[i] in multiset(data);
    }
    AdjacentSortedIsSorted(r, k, s.sortOrder);
  }

  // -----------------------------------------------------------------------
  // Selection

  /** `selected.includes(row)`: membership by reference. */
  predicate Selected(sel: seq<Row>, row: Row) {
    exists i :: 0 <= i < |sel| && sel[i].ref == row.ref
  }

  /** How many entries of `sel` are the object `ref`. */
  function CountRef(sel: seq<Row>, ref: Ref): nat {
    if sel == [] then 0 else (if sel[0].ref == ref then 1 else 0) + CountRef(sel[1..], ref)
  }

  /** No object is selected twice. */
  predicate NoDuplicates(sel: seq<Row>) {
    forall i, j :: 0 <= i < j < |sel| ==> sel[i].ref != sel[j].ref
  }

  /** `selected.filter((r) => r !== row)`: every entry that is the object
      `ref` is dropped, every other entry is kept. */
  function Without(sel: seq<Row>, ref: Ref): (r: seq<Row>)
    ensures |r| == |sel| - CountRef(sel, ref)
    ensures forall x :: x in r <==> x in sel && x.ref != ref
  {
    if sel == [] then []
    else (if sel[0].ref == ref then [] else [sel[0]]) + Without(sel[1..], ref)
  }

  lemma {:induction false} SelectedIffCounted(sel: seq<Row>, row: Row)
    ensures Selected(sel, row) <==> CountRef(sel, row.ref) > 0
  {
    if sel != [] {
      SelectedIffCounted(sel[1..], row);
      if Selected(sel, row) && sel[0].ref != row.ref {
        var i :| 0 <= i < |sel| && sel[i].ref == row.ref;
        assert sel[1..][i - 1] == sel[i];
      }
      if Selected(sel[1..], row) {
        var i :| 0 <= i < |sel[1..]| && sel[1..][i].ref == row.ref;
        assert sel[i + 1] == sel[1..][i];
      }
    }
  }

  lemma {:induction false} CountRefAppend(a: seq<Row>, b: seq<Row>, ref: Ref)
    ensures CountRef(a + b, ref) == CountRef(a, ref) + CountRef(b, ref)
  {
    if a != [] {
      assert (a + b)[0] == a[0] && (a + b)[1..] == a[1..] + b;
      CountRefAppend(a[1..], b, ref);
    } else {
      assert a + b == b;
    }
  }

  /** Filtering distributes over concatenation, so the kept entries stay in
      their original order. */
  lemma {:induction false} WithoutAppend(a: seq<Row>, b: seq<Row>, ref: Ref)
    ensures Without(a + b, ref) == Without(a, ref) + Without(b, ref)
  {
    if a != [] {
      assert (a + b)[0] == a[0] && (a + b)[1..] == a[1..] + b;
      WithoutAppend(a[1..], b, ref);
    } else {
      assert a + b == b;
    }
  }

  /** Filtering out an object that is not there changes nothing. */
  lemma {:induction false} WithoutAbsent(sel: seq<Row>, ref: Ref)
    requires CountRef(sel, ref) == 0
    ensures Without(sel, ref) == sel
  {
    if sel != [] {
      WithoutAbsent(sel[1..], ref);
    }
  }

  /** Filtering leaves the count of every other object unchanged and the
      filtered object's count at zero. */
  lemma {:induction false} CountWithout(sel: seq<Row>, ref: Ref, other: Ref)
    ensures CountRef(Without(sel, ref), other) == if other == ref then 0 else CountRef(sel, other)
  {
    if sel != [] {
      CountWithout(sel[1..], ref, other);
      var head := if sel[0].ref == ref then [] else [sel[0]];
      CountRefAppend(head, Without(sel[1..], ref), other);
    }
  }

  lemma {:induction false} NoDuplicatesIffCountsAtMostOne(sel: seq<Row>)
    ensures NoDuplicates(sel) <==> forall ref :: CountRef(sel, ref) <= 1
  {
    if sel != [] {
      NoDuplicatesIffCountsAtMostOne(sel[1..]);
      var t := sel[1..];
      if NoDuplicates(sel) {
        assert NoDuplicates(t) by {
          forall i, j | 0 <= i < j < |t| ensures t[i].ref != t[j].ref {
            assert t[i] == sel[i + 1] && t[j] == sel[j + 1];
          }
        }
        SelectedIffCounted(t, sel[0]);
        forall i | 0 <= i < |t| ensures t[i].ref != sel[0].ref {
          assert t[i] == sel[i + 1];
        }
        assert !Selected(t, sel[0]);
        assert CountRef(t, sel[0].ref) == 0;
        forall ref ensures CountRef(sel, ref) <= 1 {
          assert CountRef(sel, ref) == (if sel[0].ref == ref then 1 else 0) + CountRef(t, ref);
          if ref != sel[0].ref {
            assert CountRef(t, ref) <= 1;
          }
        }
      } else {
        var i, j :| 0 <= i < j < |sel| && sel[i].ref == sel[j].ref;
        if i == 0 {
          assert t[j - 1] == sel[j];
          assert Selected(t, sel[0]);
          SelectedIffCounted(t, sel[0]);
          assert CountRef(sel, sel[0].ref) == 1 + CountRef(t, sel[0].ref);
          assert CountRef(sel, sel[0].ref) >= 2;
        } else {
          assert t[i - 1] == sel[i] && t[j - 1] == sel[j];
          assert !NoDuplicates(t);
          var ref :| CountRef(t, ref) > 1;
          assert CountRef(sel, ref) > 1;
        }
      }
    }
  }

  /** What a checkbox toggle produces: the new selection, and the argument
      `onRowSelect` is called with (None when it is not called). */
  datatype Toggled = Toggled(selection: seq<Row>, notified: Option<seq<Row>>)

  /** `toggleRow(row)`. Does nothing when the table is not selectable;
      otherwise removes every entry that is `row` if it is selected and
      appends it if not, then hands the new selection to `onRowSelect` when
      the caller supplied one. */
  function ToggleRow(selectable: bool, hasOnRowSelect: bool, sel: seq<Row>, row: Row): (t: Toggled)
    ensures !selectable ==> t == Toggled(sel, None)
    ensures selectable && !Selected(sel, row) ==> t.selection == sel + [row]
    ensures selectable && Selected(sel, row) ==> t.selection == Without(sel, row.ref)
    ensures selectable && Selected(sel, row) ==>
      && CountRef(t.selection, row.ref) == 0
      && forall x :: x in t.selection <==> x in sel && x.ref != row.ref
    ensures selectable ==> (t.notified == if hasOnRowSelect then Some(t.selection) else None)
  {
    if !selectable then Toggled(sel, None)
    else
      var updated := if Selected(sel, row) then Without(sel, row.ref) else sel + [row];
      assert Selected(sel, row) ==> CountRef(updated, row.ref) == 0 by {
        if Selected(sel, row) {
          CountWithout(sel, row.ref, row.ref);
        }
      }
      Toggled(updated, if hasOnRowSelect then Some(updated) else None)
  }

  /** A toggle afterwards holds the toggled object exactly once if it was
      not selected and not at all if it was, and every other object exactly
      as often as before. */
  lemma ToggleCounts(sel: seq<Row>, row: Row, other: Ref)
    ensures var t := ToggleRow(true, false, sel, row).selection;
      && CountRef(t, row.ref) == (if Selected(sel, row) then 0 else 1)
      && (other != row.ref ==> CountRef(t, other) == CountRef(sel, other))
  {
    SelectedIffCounted(sel, row);
    if Selected(sel, row) {
      CountWithout(sel, row.ref, row.ref);
      CountWithout(sel, row.ref, other);
    } else {
      CountRefAppend(sel, [row], row.ref);
      CountRefAppend(sel, [row], other);
      assert CountRef([row], other) == (if row.ref == other then 1 else 0) by {
        assert [row][1..] == [];
      }
    }
  }

  /** Toggling never selects an object twice. */
  lemma ToggleKeepsNoDuplicates(selectable: bool, hasOnRowSelect: bool, sel: seq<Row>, row: Row)
    requires NoDuplicates(sel)
    ensures NoDuplicates(ToggleRow(selectable, hasOnRowSelect, sel, row).selection)
  {
    if selectable {
      var t := ToggleRow(selectable, hasOnRowSelect, sel, row).selection;
      assert t == ToggleRow(true, false, sel, row).selection;
      NoDuplicatesIffCountsAtMostOne(sel);
      forall ref ensures CountRef(t, ref) <= 1 {
        ToggleCounts(sel, row, ref);
      }
      NoDuplicatesIffCountsAtMostOne(t);
    }
  }

  /** On a selection without duplicates each toggle changes the length by
      exactly one: down when the row was selected, up when it was not. */
  lemma ToggleChangesLengthByOne(sel: seq<Row>, row: Row)
    requires NoDuplicates(sel)
    ensures |ToggleRow(true, false, sel, row).selection| ==
      if Selected(sel, row) then |sel| - 1 else |sel| + 1
  {
    if Selected(sel, row) {
      SelectedIffCounted(sel, row);
      NoDuplicatesIffCountsAtMostOne(sel);
      assert CountRef(sel, row.ref) == 1;
    }
  }

  /** Toggling an unselected row twice restores the selection exactly. */
  lemma ToggleTwiceUnselectedRestores(hasOnRowSelect: bool, sel: seq<Row>, row: Row)
    requires !Selected(sel, row)
    ensures ToggleRow(true, hasOnRowSelect,
      ToggleRow(true, hasOnRowSelect, sel, row).selection, row).selection == sel
  {
    var once := sel + [row];
    assert Selected(once, row) by {
      assert once[|sel|] == row;
    }
    SelectedIffCounted(sel, row);
    WithoutAppend(sel, [row], row.ref);
    WithoutAbsent(sel, row.ref);
    assert Without([row], row.ref) == [] by {
      assert [row][1..] == [];
    }
  }

  /** Toggling a selected row twice moves it to the end. */
  lemma ToggleTwiceSelectedMovesToEnd(hasOnRowSelect: bool, sel: seq<Row>, row: Row)
    requires Selected(sel, row)
    ensures ToggleRow(true, hasOnRowSelect,
      ToggleRow(true, hasOnRowSelect, sel, row).selection, row).selection
      == Without(sel, row.ref) + [row]
  {
    var once := Without(sel, row.ref);
    CountWithout(sel, row.ref, row.ref);
    SelectedIffCounted(once, row);
  }

  /** Membership is by object, not by `id`: toggling one of two rows that
      agree on every field (`id` included) leaves the other unselected. */
  lemma SelectionIsByReference(hasOnRowSelect: bool, sel: seq<Row>, a: Row, b: Row)
    requires a.fields == b.fields && a.ref != b.ref
    ensures Selected(ToggleRow(true, hasOnRowSelect, sel, b).selection, a) <==> Selected(sel, a)
  {
    var t := ToggleRow(true, hasOnRowSelect, sel, b).selection;
    assert t == ToggleRow(true, false, sel, b).selection;
    ToggleCounts(sel, b, a.ref);
    SelectedIffCounted(sel, a);
    SelectedIffCounted(t, a);
  }

  // -----------------------------------------------------------------------
  // Rendering

  /** A header cell: its title, and the direction indicator shown on it. */
  datatype Header = Header(key: string, title: string, sortable: bool, indicator: Option<Order>)

  /** A body row: the row, and its checkbox state when the table is
      selectable (None when no checkbox is rendered). */
  datatype Line = Line(row: Row, checkbox: Option<bool>)

  /** Exactly one of the three outputs. */
  datatype View = Loading | Empty | Grid(selectColumn: bool, headers: seq<Header>, lines: seq<Line>)

  /** The header cell of one column: only the column whose key equals
      `sortKey` shows the current direction. */
  function HeaderOf(col: Column, s: SortState): (h: Header)
    ensures h.key == col.key && h.title == col.title && h.sortable == col.sortable
    ensures h.indicator.Some? <==> s.sortKey == Some(col.key)
    ensures h.indicator.Some? ==> h.indicator.value == s.sortOrder
  {
    Header(col.key, col.title, col.sortable, if s.sortKey == Some(col.key) then Some(s.sortOrder) else None)
  }

  /** A sortable column whose key is the empty string shows the ascending
      indicator once clicked (`sortKey === col.key` holds), yet the rows keep
      their input order (`sortKey ?` is false for ""). */
  lemma EmptyKeyShowsIndicatorWithoutSorting(data: seq<Row>, col: Column)
    requires col.sortable && col.key == ""
    ensures var s := HandleSort(InitialSort, col);
      HeaderOf(col, s).indicator == Some(Asc) && SortedData(data, s) == data
  {
  }

  /** The component's output for the given props and state: loading first,
      then empty, then the table of sorted rows. */
  function Render(data: seq<Row>, columns: seq<Column>, loading: bool, selectable: bool,
                  st: TableState): (v: View)
    ensures v.Loading? <==> loading
    ensures v.Empty? <==> !loading && |data| == 0
    ensures v.Grid? ==>
      && v.selectColumn == selectable
      && |v.headers| == |columns|
      && (forall i :: 0 <= i < |columns| ==> v.headers[i] == HeaderOf(columns[i], st.sort))
      && |v.lines| == |data|
      && Displayed(v) == SortedData(data, st.sort)
      && (forall i :: 0 <= i < |v.lines| ==>
            v.lines[i].checkbox == if selectable then Some(Selected(st.selected, v.lines[i].row)) else None)
  {
    if loading then Loading
    else if |data| == 0 then Empty
    else
      var rows := SortedData(data, st.sort);
      var lines := seq(|rows|, i requires 0 <= i < |rows| =>
        Line(rows[i], if selectable then Some(Selected(st.selected, rows[i])) else None));
      assert Displayed(Grid(selectable, [], lines)) == rows;
      Grid(selectable,
           seq(|columns|, i requires 0 <= i < |columns| => HeaderOf(columns[i], st.sort)),
           lines)
  }

  /** What a rendered table shows follows from `HeaderOf` and `SortedData`:
      only the header of the sort column carries the current direction, and
      the rows shown are a permutation of `data`. */
  lemma RenderIndicatorsAndRows(data: seq<Row>, columns: seq<Column>, selectable: bool, st: TableState)
    requires |data| > 0
    ensures var v := Render(data, columns, false, selectable, st);
      && v.Grid?
      && (forall i :: 0 <= i < |columns| ==>
            (v.headers[i].indicator.Some? <==> st.sort.sortKey == Some(columns[i].key)))
      && (forall i :: 0 <= i < |columns| && v.headers[i].indicator.Some? ==>
            v.headers[i].indicator.value == st.sort.sortOrder)
      && multiset(Displayed(v)) == multiset(data)
  {
  }

  /** Before any click the table shows the rows in input order, no header
      carries an indicator and no checkbox is checked. */
  lemma InitialRender(data: seq<Row>, columns: seq<Column>, selectable: bool)
    requires |data| > 0
    ensures var v := Render(data, columns, false, selectable, InitialState);
      && v.Grid?
      && Displayed(v) == data
      && (forall i :: 0 <= i < |columns| ==> v.headers[i].indicator.None?)
      && (forall i :: 0 <= i < |v.lines| ==> v.lines[i].checkbox != Some(true))
  {
  }

  /** The rows of the rendered table, in display order. */
  function Displayed(v: View): seq<Row>
    requires v.Grid?
  {
    seq(|v.lines|, i requires 0 <= i < |v.lines| => v.lines[i].row)
  }

  /** A user interaction with the table. */
  datatype Event = ClickHeader(col: Column) | ToggleCheckbox(row: Row)

  /** One interaction: the new state and what `onRowSelect` received. A
      header click runs `handleSort` and touches only the sort state; a
      checkbox toggle runs `toggleRow` and touches only the selection. */
  function Step(selectable: bool, hasOnRowSelect: bool, st: TableState, e: Event)
    : (r: (TableState, Option<seq<Row>>))
    ensures e.ClickHeader? ==> r.0.selected == st.selected && r.1 == None
    ensures e.ClickHeader? ==> r.0.sort == HandleSort(st.sort, e.col)
    ensures e.ToggleCheckbox? ==> r.0.sort == st.sort
    ensures e.ToggleCheckbox? ==>
      r.0.selected == ToggleRow(selectable, hasOnRowSelect, st.selected, e.row).selection
    ensures e.ToggleCheckbox? && !hasOnRowSelect ==> r.1 == None
    ensures e.ToggleCheckbox? && selectable && hasOnRowSelect ==> r.1 == Some(r.0.selected)
    ensures !selectable ==> r.0.selected == st.selected && r.1 == None
  {
    match e
    case ClickHeader(col) => (TableState(HandleSort(st.sort, col), st.selected), None)
    case ToggleCheckbox(row) =>
      var t := ToggleRow(selectable, hasOnRowSelect, st.selected, row);
      (TableState(st.sort, t.selection), t.notified)
  }

  /** A row's checkbox keeps its state across header clicks: selection is
      independent of the sort order. */
  lemma SelectionSurvivesResort(data: seq<Row>, columns: seq<Column>, st: TableState, col: Column, row: Row)
    requires |data| > 0
    ensures var st' := Step(true, true, st, ClickHeader(col)).0;
      var v := Render(data, columns, false, true, st);
      var v' := Render(data, columns, false, true, st');
      && multiset(Displayed(v')) == multiset(Displayed(v))
      && forall i :: 0 <= i < |v'.lines| && v'.lines[i].row == row ==>
           v'.lines[i].checkbox == Some(Selected(st.selected, row))
  {
  }

  // -----------------------------------------------------------------------
  // Scenarios

  lemma LessAB()
    ensures JsString.Less("A", "B") && !JsString.Less("B", "A")
  {
    assert JsString.CodeUnits("A") == [65] by {
      assert "A"[1..] == [];
    }
    assert JsString.CodeUnits("B") == [66] by {
      assert "B"[1..] == [];
    }
  }

  /** Two rows named "B" and "A": one click on the name header shows
      A then B, a second click B then A. */
  lemma SortScenario()
    ensures var b := Row(1, map["id" := "1", "name" := "B"]);
      var a := Row(2, map["id" := "2", "name" := "A"]);
      var name := Column("name", "Name", "name", true);
      var once := HandleSort(InitialSort, name);
      var twice := HandleSort(once, name);
      && SortedData([b, a], once) == [a, b]
      && SortedData([b, a], twice) == [b, a]
  {
    var b := Row(1, map["id" := "1", "name" := "B"]);
    var a := Row(2, map["id" := "2", "name" := "A"]);
    var name := Column("name", "Name", "name", true);
    var once, twice := SortState(Some("name"), Asc), SortState(Some("name"), Desc);
    assert HandleSort(InitialSort, name) == once;
    assert HandleSort(once, name) == twice;
    LessAB();
    assert Field(a, "name") == Some("A") && Field(b, "name") == Some("B");
    TwoRows(a, b, "name");
  }

  /** Two rows whose values are strictly ordered: ascending puts the
      smaller first, descending the larger, whatever their input order. */
  lemma TwoRows(a: Row, b: Row, k: string)
    requires ValueLess(Field(a, k), Field(b, k))
    ensures SortRows([b, a], k, Asc) == [a, b]
    ensures SortRows([b, a], k, Desc) == [b, a]
  {
    assert [b, a][..1] == [b];
    assert SortRows([b, a], k, Asc) == [a, b] by {
      SortOne(b, k, Asc);
      assert Compare(a, b, k, Asc) == -1;
    }
    assert SortRows([b, a], k, Desc) == [b, a] by {
      SortOne(b, k, Desc);
      assert Compare(a, b, k, Desc) == 1;
      assert [b][1..] == [];
    }
  }

  lemma SortOne(b: Row, k: string, o: Order)
    ensures SortRows([b], k, o) == [b]
  {
    assert [b][..0] == [];
  }

  /** Toggling rows 1, 2, then 1 again notifies [row1], [row1, row2],
      [row2]. */
  lemma ToggleScenario()
    ensures var r1 := Row(1, map["id" := "1"]);
      var r2 := Row(2, map["id" := "2"]);
      var t1 := ToggleRow(true, true, InitialState.selected, r1);
      var t2 := ToggleRow(true, true, t1.selection, r2);
      var t3 := ToggleRow(true, true, t2.selection, r1);
      && t1.notified == Some([r1])
      && t2.notified == Some([r1, r2])
      && t3.notified == Some([r2])
  {
    var r1 := Row(1, map["id" := "1"]);
    var r2 := Row(2, map["id" := "2"]);
    var t1 := ToggleRow(true, true, InitialState.selected, r1);
    assert t1.selection == [r1];
    assert !Selected([r1], r2);
    var t2 := ToggleRow(true, true, t1.selection, r2);
    assert t2.selection == [r1, r2];
    assert [r1, r2][0].ref == r1.ref;
    assert Selected([r1, r2], r1);
    assert Without([r1, r2], 1) == [r2] by {
      assert [r1, r2][1..] == [r2];
      assert [r2][1..] == [];
    }
  }
}

=== FILE: inputfield.dfy ===
/** The styled text input (`InputField`): its props with their defaults, its
    one piece of state (`showPassword`), and what it displays. */
module InputField {
  import opened Optional

  datatype Variant = Filled | Outlined | Ghost
  datatype Size = Sm | Md | Lg
  datatype InputType = Text | Password
  datatype Theme = Light | Dark

  /** The props as the caller passes them; every one may be absent.
      `hasOnChange` says whether an `onChange` callback was supplied. */
  datatype Props = Props(
    value: Option<string>,
    hasOnChange: bool,
    labelText: Option<string>,
    placeholder: Option<string>,
    helperText: Option<string>,
    errorMessage: Option<string>,
    disabled: Option<bool>,
    invalid: Option<bool>,
    variant: Option<Variant>,
    size: Option<Size>,
    inputType: Option<InputType>,
    clearable: Option<bool>,
    theme: Option<Theme>)

  /** The five props that have a default value, after defaults are applied. */
  datatype Settings = Settings(variant: Variant, size: Size, inputType: InputType,
                               clearable: bool, theme: Theme)

  /** Destructuring with defaults: outlined, medium, text, not clearable,
      light. A supplied prop is kept as given. */
  function Resolve(p: Props): (s: Settings)
    ensures p.variant.Some? ==> s.variant == p.variant.value
    ensures p.size.Some? ==> s.size == p.size.value
    ensures p.inputType.Some? ==> s.inputType == p.inputType.value
    ensures p.clearable.Some? ==> s.clearable == p.clearable.value
    ensures p.theme.Some? ==> s.theme == p.theme.value
    ensures p.variant.None? ==> s.variant == Outlined
    ensures p.size.None? ==> s.size == Md
    ensures p.inputType.None? ==> s.inputType == Text
    ensures p.clearable.None? ==> !s.clearable
    ensures p.theme.None? ==> s.theme == Light
  {
    Settings(Default(p.variant, Outlined), Default(p.size, Md), Default(p.inputType, Text),
             Default(p.clearable, false), Default(p.theme, Light))
  }

  /** A field given no props at all. */
  const NoProps := Props(None, false, None, None, None, None, None, None, None, None, None, None, None)

  lemma DefaultSettings()
    ensures Resolve(NoProps) == Settings(Outlined, Md, Text, false, Light)
  {
  }

  /** The `type` attribute of the rendered `<input>`: masked only for a
      password field whose text is not being shown. */
  function RenderedType(t: InputType, showPassword: bool): (r: InputType)
    ensures r == Password <==> t == Password && !showPassword
  {
    if t == Password && !showPassword then Password else Text
  }

  /** The eye button's click handler, `setShowPassword((p) => !p)`. */
  function TogglePassword(showPassword: bool): bool {
    !showPassword
  }

  /** The clear button is rendered when the field is clearable and holds a
      non-empty value. */
  predicate ClearVisible(clearable: bool, value: Option<string>) {
    clearable && Truthy(value)
  }

  /** Pressing clear: the value handed to `onChange` (as the event's
      `target.value`), or None when no `onChange` was supplied. */
  function Clear(hasOnChange: bool): (emitted: Option<string>)
    ensures hasOnChange <==> emitted.Some?
    ensures emitted.Some? ==> emitted.value == ""
  {
    if hasOnChange then Some("") else None
  }

  /** The helper line: the helper text, unless an error message is set. */
  function HelperShown(helperText: Option<string>, errorMessage: Option<string>): Option<string> {
    if Truthy(helperText) && !Truthy(errorMessage) then helperText else None
  }

  /** The error line: the error message whenever it is non-empty. */
  function ErrorShown(errorMessage: Option<string>): Option<string> {
    if Truthy(errorMessage) then errorMessage else None
  }

  /** What the field displays. `passwordButton` is None when there is no
      eye button, otherwise whether the text is currently shown. */
  datatype FieldView = FieldView(
    labelText: Option<string>,
    inputType: InputType,
    clearButton: bool,
    passwordButton: Option<bool>,
    helper: Option<string>,
    error: Option<string>)

  function Render(p: Props, showPassword: bool): (v: FieldView)
    ensures v.labelText.Some? <==> Truthy(p.labelText)
    ensures v.labelText.Some? ==> v.labelText == p.labelText
    ensures v.inputType == Password <==> Resolve(p).inputType == Password && !showPassword
    ensures v.clearButton <==> Resolve(p).clearable && Truthy(p.value)
    ensures v.passwordButton.Some? <==> Resolve(p).inputType == Password
    ensures v.passwordButton.Some? ==> v.passwordButton.value == showPassword
    ensures v.helper.Some? <==> Truthy(p.helperText) && !Truthy(p.errorMessage)
    ensures v.error.Some? <==> Truthy(p.errorMessage)
    ensures v.helper.Some? ==> v.helper == p.helperText
    ensures v.error.Some? ==> v.error == p.errorMessage
  {
    var s := Resolve(p);
    FieldView(
      if Truthy(p.labelText) then p.labelText else None,
      RenderedType(s.inputType, showPassword),
      ClearVisible(s.clearable, p.value),
      if s.inputType == Password then Some(showPassword) else None,
      HelperShown(p.helperText, p.errorMessage),
      ErrorShown(p.errorMessage))
  }

  /** The helper line and the error line are never shown together, and an
      error always replaces the helper. */
  lemma HelperAndErrorExclusive(p: Props, showPassword: bool)
    ensures var v := Render(p, showPassword);
      !(v.helper.Some? && v.error.Some?)
  {
  }

  /** Pressing the eye button twice restores the masking; pressing it once
      on a password field switches between masked and shown. */
  lemma PasswordToggleInvolution(p: Props, showPassword: bool)
    requires Resolve(p).inputType == Password
    ensures TogglePassword(TogglePassword(showPassword)) == showPassword
    ensures Render(p, TogglePassword(showPassword)).inputType != Render(p, showPassword).inputType
  {
  }

  /** A text field is never masked, whatever the toggle state. */
  lemma TextFieldNeverMasked(p: Props, showPassword: bool)
    requires Resolve(p).inputType == Text
    ensures Render(p, showPassword).inputType == Text
    ensures Render(p, showPassword).passwordButton == None
  {
  }

  /** When the parent stores what `onChange` reports, pressing clear hides
      the clear button. */
  lemma ClearHidesClearButton(p: Props, showPassword: bool)
    requires p.hasOnChange
    ensures var cleared := p.(value := Clear(p.hasOnChange));
      !Render(cleared, showPassword).clearButton
  {
  }
}

=== FILE: inputpage.dfy ===
/** The form page (`InputPage`): its validator and the props it passes to
    its input fields. */
module InputPage {
  import opened Optional
  import JsString
  import InputField

  const UsernameKey := "username"
  const EmailKey := "email"
  const PasswordKey := "password"

  const UsernameMessage := "Username is required"
  const EmailMessage := "Enter a valid email"
  const PasswordMessage := "Password must be at least 6 characters"

  const MinPasswordLength := 6

  /** The three rules. The username and email rules are stated without the
      validator's own expressions: a username with a character other than
      white space, an email with an '@' at some index. The password rule is
      the validator's length test itself: at least six UTF-16 code units. */
  predicate UsernameOk(username: string) { exists i :: 0 <= i < |username| && !JsString.IsSpace(username[i]) }
  predicate EmailOk(email: string) { exists i :: 0 <= i < |email| && email[i] == '@' }
  predicate PasswordOk(password: string) { JsString.Length(password) >= MinPasswordLength }

  /** The result of `validate`: the error map it stores and the boolean it
      returns. */
  datatype Validation = Validation(errors: map<string, string>, valid: bool)

  /** `validate()`: one error per failed rule under that field's key, each
      with its fixed message; valid exactly when there is no error. */
  function Validate(username: string, email: string, password: string): (v: Validation)
    ensures v.errors.Keys <= {UsernameKey, EmailKey, PasswordKey}
    ensures UsernameKey in v.errors <==> !UsernameOk(username)
    ensures EmailKey in v.errors <==> !EmailOk(email)
    ensures PasswordKey in v.errors <==> !PasswordOk(password)
    ensures UsernameKey in v.errors ==> v.errors[UsernameKey] == UsernameMessage
    ensures EmailKey in v.errors ==> v.errors[EmailKey] == EmailMessage
    ensures PasswordKey in v.errors ==> v.errors[PasswordKey] == PasswordMessage
    ensures v.valid <==> UsernameOk(username) && EmailOk(email) && PasswordOk(password)
    ensures v.valid <==> |v.errors| == 0
  {
    JsString.TrimEmptyIffBlank(username);
    var e1: map<string, string> := if JsString.Trim(username) == "" then map[UsernameKey := UsernameMessage] else map[];
    var e2 := if '@' !in email then e1[EmailKey := EmailMessage] else e1;
    var e3 := if JsString.Length(password) < MinPasswordLength then e2[PasswordKey := PasswordMessage] else e2;
    assert |e3| == 0 <==> e3 == map[] by {
      if |e3| == 0 {
        assert e3.Keys == {};
      }
    }
    Validation(e3, |e3| == 0)
  }

  /** Two error maps agree on one field: the same error, or none in both. */
  predicate SameError(a: map<string, string>, b: map<string, string>, key: string) {
    (key in a <==> key in b) && (key in a ==> a[key] == b[key])
  }

  /** The rules are independent: changing one input never adds, removes or
      alters the error of another field. */
  lemma RulesIndependent(u: string, e: string, p: string, u': string, e': string, p': string)
    ensures SameError(Validate(u, e, p).errors, Validate(u', e, p).errors, EmailKey)
    ensures SameError(Validate(u, e, p).errors, Validate(u', e, p).errors, PasswordKey)
    ensures SameError(Validate(u, e, p).errors, Validate(u, e', p).errors, UsernameKey)
    ensures SameError(Validate(u, e, p).errors, Validate(u, e', p).errors, PasswordKey)
    ensures SameError(Validate(u, e, p).errors, Validate(u, e, p').errors, UsernameKey)
    ensures SameError(Validate(u, e, p).errors, Validate(u, e, p').errors, EmailKey)
  {
  }

  /** A password of six or more characters always passes, whatever those
      characters are; one of two or fewer never does. */
  lemma PasswordLengthBounds(username: string, email: string, password: string)
    ensures |password| >= MinPasswordLength ==> PasswordKey !in Validate(username, email, password).errors
    ensures |password| <= 2 ==> PasswordKey in Validate(username, email, password).errors
  {
    JsString.LengthCountsCodeUnits(password);
  }

  /** The username field as the page renders it: clearable, with helper
      text, showing the stored error for its key. */
  function UsernameProps(username: string, errors: map<string, string>, theme: InputField.Theme): InputField.Props {
    InputField.NoProps.(value := Some(username), hasOnChange := true, labelText := Some("Username"),
      placeholder := Some("Enter username"), helperText := Some("This will be public"),
      errorMessage := if UsernameKey in errors then Some(errors[UsernameKey]) else None,
      clearable := Some(true), theme := Some(theme))
  }

  /** The email field as the page renders it: the filled variant, no helper
      text, showing the stored error for its key. */
  function EmailProps(email: string, errors: map<string, string>, theme: InputField.Theme): InputField.Props {
    InputField.NoProps.(value := Some(email), hasOnChange := true, labelText := Some("Email"),
      placeholder := Some("Enter email"),
      errorMessage := if EmailKey in errors then Some(errors[EmailKey]) else None,
      variant := Some(InputField.Filled), theme := Some(theme))
  }

  /** The password field as the page renders it: a password input with a
      helper line, showing the stored error for its key. */
  function PasswordProps(password: string, errors: map<string, string>, theme: InputField.Theme): InputField.Props {
    InputField.NoProps.(value := Some(password), hasOnChange := true, labelText := Some("Password"),
      placeholder := Some("Enter password"), helperText := Some("At least 6 characters"),
      errorMessage := if PasswordKey in errors then Some(errors[PasswordKey]) else None,
      inputType := Some(InputField.Password), theme := Some(theme))
  }

  /** After a submit, the username field shows "Username is required"
      exactly when the username is blank, and its helper text otherwise. */
  lemma UsernameFieldAfterSubmit(username: string, email: string, password: string,
                                 theme: InputField.Theme, show: bool)
    ensures var v := InputField.Render(UsernameProps(username, Validate(username, email, password).errors, theme), show);
      && (v.error == Some(UsernameMessage) <==> !UsernameOk(username))
      && (v.error.None? <==> UsernameOk(username))
      && (v.helper.Some? <==> UsernameOk(username))
  {
  }

  /** After a submit, the email field shows "Enter a valid email" exactly
      when the email has no '@', and nothing below it otherwise. */
  lemma EmailFieldAfterSubmit(username: string, email: string, password: string,
                              theme: InputField.Theme, show: bool)
    ensures var v := InputField.Render(EmailProps(email, Validate(username, email, password).errors, theme), show);
      && (v.error == Some(EmailMessage) <==> !EmailOk(email))
      && (v.error.None? <==> EmailOk(email))
      && v.helper.None?
  {
  }

  /** After a submit, the password field shows its error exactly when the
      password is too short; it starts masked. */
  lemma PasswordFieldAfterSubmit(username: string, email: string, password: string, theme: InputField.Theme)
    ensures var v := InputField.Render(PasswordProps(password, Validate(username, email, password).errors, theme), false);
      && (v.error == Some(PasswordMessage) <==> !PasswordOk(password))
      && (v.helper.Some? <==> PasswordOk(password))
      && v.inputType == InputField.Password
  {
  }
}

=== FILE: jsstring.dfy ===
/** The parts of JavaScript string semantics the components depend on.
    A JavaScript string is a sequence of UTF-16 code units: `length` counts
    code units, the relational operators compare code units
    lexicographically (IsLessThan, section 7.2.13 of ECMA-262), and `trim`
    strips the characters of the WhiteSpace and LineTerminator productions
    (sections 12.2 and 12.3 of ECMA-262). A Dafny `string` holds Unicode
    scalar values, so the code units are computed explicitly. */
module JsString {

  predicate IsHighSurrogate(u: int) { 0xD800 <= u <= 0xDBFF }

  predicate IsLowSurrogate(u: int) { 0xDC00 <= u <= 0xDFFF }

  /** The UTF-16 encoding of one character: one code unit inside the Basic
      Multilingual Plane, a surrogate pair above it. */
  function EncodeChar(c: char): (u: seq<int>)
    ensures |u| == (if c as int < 0x1_0000 then 1 else 2)
    ensures forall i :: 0 <= i < |u| ==> 0 <= u[i] < 0x1_0000
    ensures |u| == 1 ==> !IsHighSurrogate(u[0]) && !IsLowSurrogate(u[0])
    ensures |u| == 2 ==> IsHighSurrogate(u[0]) && IsLowSurrogate(u[1])
  {
    var v := c as int;
    if v < 0x1_0000 then [v]
    else [0xD800 + (v - 0x1_0000) / 0x400, 0xDC00 + (v - 0x1_0000) % 0x400]
  }

  /** The code point a well-formed one- or two-unit encoding stands for. */
  function DecodeUnits(u: seq<int>): int
    requires |u| == 1 || |u| == 2
  {
    if |u| == 1 then u[0]
    else 0x1_0000 + (u[0] - 0xD800) * 0x400 + (u[1] - 0xDC00)
  }

  /** Encoding a character loses nothing: its code point can be recovered. */
  lemma DecodeEncodeChar(c: char)
    ensures DecodeUnits(EncodeChar(c)) == c as int
  {
    var v := c as int;
    if v >= 0x1_0000 {
      var w := v - 0x1_0000;
      assert w == (w / 0x400) * 0x400 + w % 0x400;
    }
  }

  /** The code units of a whole string. */
  function CodeUnits(s: string): (u: seq<int>)
    ensures |s| <= |u| <= 2 * |s|
    ensures forall i :: 0 <= i < |u| ==> 0 <= u[i] < 0x1_0000
  {
    if s == [] then [] else EncodeChar(s[0]) + CodeUnits(s[1..])
  }

  /** `s.length`: the number of UTF-16 code units. */
  function Length(s: string): nat {
    |CodeUnits(s)|
  }

  predicate InBmp(s: string) {
    forall i :: 0 <= i < |s| ==> s[i] as int < 0x1_0000
  }

  /** `length` is never below the number of characters and equals it exactly
      when no character lies outside the Basic Multilingual Plane. */
  lemma {:induction false} LengthCountsCodeUnits(s: string)
    ensures |s| <= Length(s) <= 2 * |s|
    ensures Length(s) == |s| <==> InBmp(s)
  {
    if s != [] {
      LengthCountsCodeUnits(s[1..]);
      assert Length(s) == |EncodeChar(s[0])| + Length(s[1..]);
      if InBmp(s) {
        assert InBmp(s[1..]) by {
          forall i | 0 <= i < |s[1..]| ensures s[1..][i] as int < 0x1_0000 {
            assert s[1..][i] == s[i + 1];
          }
        }
      }
      if Length(s) == |s| {
        assert |EncodeChar(s[0])| == 1;
        forall i | 0 <= i < |s| ensures s[i] as int < 0x1_0000 {
          if i > 0 {
            assert s[i] == s[1..][i - 1];
          }
        }
      }
    }
  }

  // ---------------------------------------------------------------------
  // Ordering

  /** Lexicographic order on code-unit sequences: a proper prefix comes
      first, otherwise the first differing unit decides. */
  predicate LexLess(a: seq<int>, b: seq<int>) {
    if |b| == 0 then false
    else if |a| == 0 then true
    else if a[0] != b[0] then a[0] < b[0]
    else LexLess(a[1..], b[1..])
  }

  /** JavaScript `a < b` on two strings. */
  predicate Less(a: string, b: string) {
    LexLess(CodeUnits(a), CodeUnits(b))
  }

  lemma {:induction false} LexIrreflexive(a: seq<int>)
    ensures !LexLess(a, a)
  {
    if |a| > 0 {
      LexIrreflexive(a[1..]);
    }
  }

  lemma {:induction false} LexAsymmetric(a: seq<int>, b: seq<int>)
    ensures LexLess(a, b) ==> !LexLess(b, a)
  {
    if |a| > 0 && |b| > 0 && a[0] == b[0] {
      LexAsymmetric(a[1..], b[1..]);
    }
  }

  lemma {:induction false} LexTransitive(a: seq<int>, b: seq<int>, c: seq<int>)
    ensures LexLess(a, b) && LexLess(b, c) ==> LexLess(a, c)
  {
    if |a| > 0 && |b| > 0 && |c| > 0 && a[0] == b[0] && b[0] == c[0] {
      LexTransitive(a[1..], b[1..], c[1..]);
    }
  }

  lemma {:induction false} LexTotal(a: seq<int>, b: seq<int>)
    ensures a == b || LexLess(a, b) || LexLess(b, a)
  {
    if |a| > 0 && |b| > 0 && a[0] == b[0] {
      LexTotal(a[1..], b[1..]);
      if a[1..] == b[1..] {
        assert a == [a[0]] + a[1..] && b == [b[0]] + b[1..];
      }
    }
  }

  /** `<` on strings is a strict order: never both `a < b` and `b < a`. */
  lemma LessAsymmetric(a: string, b: string)
    ensures Less(a, b) ==> !Less(b, a)
  {
    LexAsymmetric(CodeUnits(a), CodeUnits(b));
  }

  /** "Not less than" is transitive: if `b` is not less than `a` and `c` is
      not less than `b`, then `c` is not less than `a`. A sorted sequence
      needs this for its order to carry from neighbours to every pair. */
  lemma NotLessTransitive(a: string, b: string, c: string)
    requires !Less(b, a) && !Less(c, b)
    ensures !Less(c, a)
  {
    var A, B, C := CodeUnits(a), CodeUnits(b), CodeUnits(c);
    LexTotal(A, B);
    LexTotal(B, C);
    LexTransitive(A, B, C);
    LexAsymmetric(A, C);
    LexIrreflexive(A);
  }

  // ---------------------------------------------------------------------
  // Trimming

  /** The characters `trim` removes: WhiteSpace (tab, vertical tab, form
      feed, zero-width no-break space and every space separator of Unicode
      category Zs) and LineTerminator (LF, CR, line and paragraph
      separator). */
  predicate IsSpace(c: char) {
    || c == '\t' || c == '\U{B}' || c == '\U{C}' || c == ' ' || c == '\U{A0}'
    || c == '\U{1680}' || ('\U{2000}' <= c <= '\U{200A}') || c == '\U{202F}'
    || c == '\U{205F}' || c == '\U{3000}' || c == '\U{FEFF}'
    || c == '\n' || c == '\r' || c == '\U{2028}' || c == '\U{2029}'
  }

  predicate Blank(s: string) {
    forall i :: 0 <= i < |s| ==> IsSpace(s[i])
  }

  /** Drops the leading white space: what remains is a suffix of `s` that
      does not start with white space, and everything dropped was white
      space. */
  function TrimStart(s: string): (r: string)
    ensures |r| <= |s| && r == s[|s| - |r|..]
    ensures r == [] || !IsSpace(r[0])
    ensures Blank(s[..|s| - |r|])
  {
    if s != [] && IsSpace(s[0]) then TrimStart(s[1..]) else s
  }

  /** Drops the trailing white space: what remains is a prefix of `s` that
      does not end with white space, and everything dropped was white
      space. */
  function TrimEnd(s: string): (r: string)
    ensures |r| <= |s| && r == s[..|r|]
    ensures r == [] || !IsSpace(r[|r| - 1])
    ensures Blank(s[|r|..])
  {
    if s != [] && IsSpace(s[|s| - 1]) then TrimEnd(s[..|s| - 1]) else s
  }

  /** `s.trim()`. */
  function Trim(s: string): string {
    TrimEnd(TrimStart(s))
  }

  /** `s.trim()` is the empty (falsy) string exactly when `s` is all white
      space. */
  lemma TrimEmptyIffBlank(s: string)
    ensures Trim(s) == [] <==> Blank(s)
  {
    var t := TrimStart(s);
    if Trim(s) == [] {
      assert Blank(t[0..]);
      assert t == [];
      assert s[..|s| - |t|] == s;
    } else {
      var r := Trim(s);
      assert !IsSpace(r[0]);
      assert r[0] == t[0] == s[|s| - |t|];
    }
  }
}

=== FILE: optional.dfy ===
/** Values a JavaScript component may leave `undefined`: optional props and
    optional row fields. */
module Optional {

  /** `Some(value)` for a supplied value, `None` for `undefined`. */
  datatype Option<+T> = None | Some(value: T)

  /** The value of a prop destructured as `name = fallback`: the supplied
      value, or `fallback` when the prop is `undefined`. */
  function Default<T>(o: Option<T>, fallback: T): T {
    if o.Some? then o.value else fallback
  }

  /** JavaScript truthiness of an optional string: `undefined` and `""` are
      falsy, every other string is truthy. */
  predicate Truthy(s: Option<string>) {
    s.Some? && s.value != ""
  }
}
